=== FILE: README.md ===
# Chunk file, top-match lookup and benchmark score of a small RAG demo

This project models the pure logic of a small retrieval-augmented chat
demo. The demo embeds a FAQ text with an external embedding service. It
stores the vectors in a flat L2 index and answers a question from the
closest chunk. Three pieces of that logic are deterministic string or
number functions, and they are what is modelled here:

- **The chunk file.** The build script writes each chunk followed by
  `"\n=====\n"` (`Embed.Serialize`, `Embed.WriteChunkFile`). The chat script
  reads the file back in text mode (`Retrieval.ReadText`, universal
  newlines) and splits it with Python's `str.split("=====\n")`
  (`Retrieval.ReadChunkFile`, `Retrieval.LoadChunks`, on top of
  `PySplit.Split`). The index search
  reports a position, and the answer's context is the loaded piece at that
  position (`Retrieval.GetTopMatch`, with Python's negative indexing). So
  the chunk/vector alignment rests entirely on this write/read round trip.
- **The prompt** sent to the chat model (`Retrieval.BuildPrompt`).
- **The benchmark score** (`Benchmark.PerformanceScore` and the
  imperative `Benchmark.CalculatePerformanceScore`). It starts at 10 and
  subtracts tiered penalties for response time, similarity and context
  count, then applies `max(1, ·)`.

Index construction is modelled as a value (`Embed.CreateIndex`). The
embedding service's answer is a parameter. Each search is an oracle: the
caller passes in the position it reports.

Files: `results.dfy` (the `Result` type for raised errors), `strings.dfy`
(occurrence, containment, `str.find`), `pysplit.dfy` (`str.split`,
`str.join`, `str.count`, `str.replace`), `embed.py` → `embed.dfy`, `main.py` →
`retrieval.dfy`, `benchmark.py` → `benchmark.dfy`.

What the proofs establish:

- `PySplit.Split` is Python's split. Joining its pieces gives back the
  input, no piece holds the separator, and every cut is at the leftmost
  remaining occurrence. Any list with those properties equals `Split`'s
  result (`SplitUnique`). Its length is `str.count` plus one.
- The text-mode read equals Python's
  `text.replace("\r\n", "\n").replace("\r", "\n")`, with `str.replace`
  defined as a split followed by a join (`ReadTextIsReplace`).
- Writing n chunks and loading them back gives n + 1 pieces, provided no
  chunk holds a carriage return and no `chunk + "\n"` contains
  `"=====\n"`. Piece i is chunk i plus the writer's newline, and the last
  piece is empty. So every position the index can report selects that
  position's chunk followed by `"\n"`.
- For chunks without carriage returns the converse holds too: if some
  `chunk + "\n"` contains `"=====\n"`, the file loads as more than n + 1
  pieces (`UnsafeChunkAddsPieces`, `AlignedExactlyWhenSafe`). The two-chunk
  file `["a=====", "b"]` shows the misaligned lookup concretely.
- A chunk ending in `=====\r` also breaks the round trip, because the read
  turns the written `"\r\n"` into `"\n"` (`CarriageReturnMisaligns`).
- The score always lies in 3..10, so the documented 1..10 range holds and
  the `max(1, ·)` clamp never changes the result. The score is 10 exactly
  when no penalty applies, and it is monotone in each input.

The code builds an L2 index, takes the single nearest hit, and never
checks that the loaded list lines up with the index.

## Model

| member | source | states |
|---|---|---|
| Embed.CreateIndex | embed.py:17-24 | needs at least one chunk, because the dimension is read from the first vector, and vectors of uniform dimension; the index holds one vector per chunk, in chunk order, all of the index's dimension |
| Embed.Serialize | embed.py:31-33 | the file holds each chunk's length plus 7 per chunk; it is empty exactly when there are no chunks; a non-empty file ends with the delimiter `"\n=====\n"` |
| Embed.SerializeConcat | embed.py:32-33 | writing the chunks of `a + b` writes a's file, then b's |
| Embed.SerializeSnoc | embed.py:32-33 | one more chunk appends that chunk followed by `"\n=====\n"` |
| Embed.SerializeLayout | embed.py:32-33 | chunk i and its delimiter sit at offset (lengths of earlier chunks) + 7·i: the file is the chunks in order |
| Embed.WriteChunkFile | embed.py:31-33 | the loop of one write per chunk produces exactly the serialised content and its length |
| PySplit.Split | main.py:14 | `str.split`: at least one piece; the pieces joined with the separator give back the input; no piece contains the separator; each cut is leftmost; empty input gives `[""]` |
| PySplit.SplitIsSplitOf | main.py:14 | the split result meets the definition of a left-to-right, non-overlapping split |
| PySplit.SplitUnique | main.py:14 | every list meeting that definition equals the split result, so the split is determined by the content |
| PySplit.SplitAfterCut | main.py:14 | if `p + sep` first contains the separator at its end, splitting `p + sep + rest` yields `p` and then the split of `rest` |
| PySplit.SplitCount | main.py:14 | the number of pieces is the number of non-overlapping left-to-right separator occurrences plus one |
| Retrieval.ReadText | main.py:13-14 | the text-mode read leaves no carriage return and never lengthens the text; text without carriage returns comes back unchanged |
| Retrieval.ReadTextIsReplace | main.py:13 | the read is Python's `replace("\r\n", "\n")` followed by `replace("\r", "\n")`: each `"\r\n"` and each other `"\r"` becomes one `"\n"`, and nothing else changes |
| Retrieval.ReadChunkFile | main.py:13-14 | the loaded list re-joins to the text as read, and no piece holds `"=====\n"` or a carriage return |
| Retrieval.LoadChunks | main.py:14 | the loaded list has count + 1 pieces, re-joins to the file content, and no piece contains `"=====\n"`; content ending in `"=====\n"` leaves an empty last piece |
| Retrieval.GetTopMatch | main.py:23-24 | Python indexing: it succeeds exactly for positions in -n..n-1; a position p in 0..n-1 returns piece p, a position p in -n..-1 returns piece n + p; any other position raises IndexError |
| Retrieval.SafeChunkCutIsLeftmost | embed.py:33 | if `chunk + "\n"` has no `"=====\n"`, the first separator after it is the one the writer appended, because the newline cannot be part of a `=====` run |
| Retrieval.ReadTextAfterWrite | main.py:13 | a file written from chunks without carriage returns reads back unchanged |
| Retrieval.SplitAfterWrite | main.py:14 | splitting the written content of n safe chunks gives n + 1 pieces; piece i is chunk i plus `"\n"`, and the last piece is `""` |
| Retrieval.LoadAfterWrite | main.py:13-14 | reading and splitting the file of n safe chunks (no carriage return, no separator) gives n + 1 pieces; piece i is chunk i plus `"\n"`, and the last piece is `""` |
| Retrieval.LoadedPiecesAligned | main.py:24 | alignment: the loaded piece at every index position starts with the chunk embedded there |
| Retrieval.TopMatchAfterWrite | main.py:23-24 | for every position inside the built index, the lookup on the loaded file returns that position's chunk plus `"\n"` |
| Retrieval.SplitEndsInEmptyPiece | main.py:14 | text that ends in `"=====\n"` splits with an empty last piece; two occurrences of the separator never overlap, so the last one is always cut |
| Retrieval.TranslateAppend | main.py:13 | appending text that holds no carriage return and does not start with a newline commutes with the read |
| Retrieval.NegativePositionSelectsEmptyPiece | main.py:23-24 | for every chunk list, safe or not, position -1 raises nothing and selects the empty last piece: a written file is empty or ends in `"=====\n"`, and the read keeps that ending |
| Retrieval.CountWritten | embed.py:31-33 | the written file holds at least one separator per chunk, and at least one more when some `chunk + "\n"` contains `"=====\n"` |
| Retrieval.UnsafeChunkAddsPieces | main.py:13-14 | for chunks without carriage returns, a chunk whose text plus newline contains `"=====\n"` makes the load return more than n + 1 pieces |
| Retrieval.AlignedExactlyWhenSafe | main.py:13-14 | for chunks without carriage returns, the load returns exactly n + 1 pieces if and only if every chunk is safe |
| Retrieval.SeparatorInChunkMisaligns | main.py:14 | the chunks `["a=====", "b"]` load as `["a", "", "b\n", ""]`, and index position 1 (chunk "b") yields `""` |
| Retrieval.CarriageReturnMisaligns | main.py:13 | `"a=====\r" + "\n"` holds no `"=====\n"`, yet the chunks `["a=====\r", "b"]` load as `["a", "", "b\n", ""]`, because the read turns `"\r\n"` into `"\n"`; position 1 yields `""` |
| Retrieval.BuildPrompt | main.py:28 | the prompt starts with `"Context: "`, ends with `"\n\n Response:"`, has the context at offset 9, then `"\n\nUser Query: "`, then the query, and is 35 characters longer than both; together these fix the whole prompt |
| Retrieval.PromptDeterminesParts | main.py:28 | two prompts with equal context lengths are equal only if their contexts and queries are equal |
| Retrieval.PromptIsAmbiguous | main.py:28 | a context containing the query label can yield the same prompt as a different context and query |
| Benchmark.ResponseTimePenalty | benchmark.py:123-128 | exactly one tier applies: above 3 s costs 3, (2, 3] costs 2, (1, 2] costs 1, at most 1 s costs nothing |
| Benchmark.SimilarityPenalty | benchmark.py:131-134 | exactly one tier applies: below 0.6 costs 2, [0.6, 0.7) costs 1, at least 0.7 costs nothing |
| Benchmark.ContextPenalty | benchmark.py:137-138 | fewer than one context chunk on average costs exactly 2, otherwise nothing |
| Benchmark.PerformanceScore | benchmark.py:118-140 | the score lies within the documented 1..10 and in fact within 3..10; the clamp never applies; the score is 10 exactly when time ≤ 1, similarity ≥ 0.7 and context count ≥ 1 |
| Benchmark.CalculatePerformanceScore | benchmark.py:120-140 | the routine's running score with its `if`/`elif` chains and final `max(1, score)` equals the tier-penalty score and lies in 3..10 |
| Benchmark.ScoreMonotone | benchmark.py:122-138 | a run that is no slower, no less similar and retrieves no fewer chunks never scores lower |

## Left out

- Embedding and chat calls (embed.py:14,18; main.py:8,19-20,30-38): network calls to an external service. Embeddings enter as a parameter of `Embed.CreateIndex`. The chat reply is not modelled; only the prompt is.
- The flat L2 index's search and its file persistence (embed.py:30; main.py:12,23): a foreign library doing floating-point nearest-neighbour search. The position a search reports is a parameter of `Retrieval.GetTopMatch`, and `Retrieval.TopMatchAfterWrite` assumes it lies inside the index.
- The text splitter (embed.py:15-17): its chunking algorithm lives in a library that is not part of this model. Chunks enter as parameters.
- File reads and writes (embed.py:7-10,31; main.py:13): opening and closing files is not modelled. The read of the chunk file is modelled by its universal-newline translation (`Retrieval.ReadText`). The write is taken as identity, which is what text mode does where the line separator is `"\n"`. On a platform that writes `"\r\n"`, the read turns it back into `"\n"`, so the round trip still holds for chunks without carriage returns.
- The interactive loop and its `exit` handling (main.py:40-50): console I/O.
- `benchmark_rag_system` and `main` in benchmark.py: timing, mean and median, and printing. They also import a class that main.py does not define.
- config.py and check_models.py: constants and a model-listing network call. The similarity threshold, top-k, chunk-size and caching settings are used by none of the modelled code.
- NaN and infinity in the benchmark averages: each average is a real number. A finite average is read as the shortest decimal that prints as the same float (`repr`). That reading keeps the order of floats and sends the float literals `0.6` and `0.7` to the reals 0.6 and 0.7; the other thresholds are whole numbers and exact. So every tier agrees with Python's float comparisons. Reading the exact binary value instead would put the float `0.6` below the real 0.6, in the wrong tier.
- Embed.CreateIndex: vectors of different lengths are a precondition rather than an error result. The array conversion or the index's `add` raises on them (embed.py:22); the embedding service returns one dimension per model.
- Embed.CreateIndex: the vectors are stored as the exact reals the embedding service returned. The code converts them to float32 (embed.py:22), but nothing modelled reads the stored vectors, because the search is an oracle.
- Embed.CreateIndex: the empty chunk list is a precondition rather than an error result. The code does not handle it, and `vectors[0]` raises before an index exists.
- PySplit.Split: requires a non-empty separator. Python raises ValueError for an empty one, but the code always passes the constant `"=====\n"`.

=== FILE: benchmark.dfy ===
/** The benchmark's overall performance score: start from 10, take off
    tiered penalties for slow answers, weak similarity and missing context,
    and never go below 1. Each float input is read as the shortest decimal
    that prints as the same float; that reading keeps the order of floats
    and sends the float literals 0.6 and 0.7 to the reals 0.6 and 0.7, so
    every tier agrees with the float comparisons. */
module Benchmark {

  /** The averages a benchmark run reports and the score reads. */
  datatype BenchmarkResults = BenchmarkResults(
    avgResponseTime: real,
    avgSimilarity: real,
    avgContextCount: real)

  /** Penalty for the average response time, in seconds: one tier only. */
  function ResponseTimePenalty(t: real): (p: nat)
    ensures p <= 3
    ensures p == 3 <==> t > 3.0
    ensures p == 2 <==> 2.0 < t <= 3.0
    ensures p == 1 <==> 1.0 < t <= 2.0
    ensures p == 0 <==> t <= 1.0
  {
    if t > 3.0 then 3 else if t > 2.0 then 2 else if t > 1.0 then 1 else 0
  }

  /** Penalty for the average best-match similarity: one tier only. */
  function SimilarityPenalty(s: real): (p: nat)
    ensures p <= 2
    ensures p == 2 <==> s < 0.6
    ensures p == 1 <==> 0.6 <= s < 0.7
    ensures p == 0 <==> s >= 0.7
  {
    if s < 0.6 then 2 else if s < 0.7 then 1 else 0
  }

  /** Penalty for retrieving fewer than one context chunk on average. */
  function ContextPenalty(c: real): (p: nat)
    ensures p == 2 <==> c < 1.0
    ensures p == 0 <==> c >= 1.0
  {
    if c < 1.0 then 2 else 0
  }

  function Deductions(results: BenchmarkResults): nat {
    ResponseTimePenalty(results.avgResponseTime)
      + SimilarityPenalty(results.avgSimilarity)
      + ContextPenalty(results.avgContextCount)
  }

  /** The score, as the sum of the three tier penalties taken from 10 and
      clamped below at 1. At most 7 can be taken off, so the clamp never
      changes the result and the score stays within 3..10. */
  function PerformanceScore(results: BenchmarkResults): (score: int)
    ensures 1 <= score <= 10
    ensures 3 <= score
    ensures score == 10 - Deductions(results)
    ensures score == 10 <==>
      && results.avgResponseTime <= 1.0
      && results.avgSimilarity >= 0.7
      && results.avgContextCount >= 1.0
  {
    var s := 10 - Deductions(results);
    if s > 1 then s else 1
  }

  /** The scoring routine as written: a running score decremented by each
      `if`/`elif` chain in turn, then `max(1, score)`. */
  method CalculatePerformanceScore(results: BenchmarkResults) returns (score: int)
    ensures score == PerformanceScore(results)
    ensures 3 <= score <= 10
  {
    score := 10;

    if results.avgResponseTime > 3.0 {
      score := score - 3;
    } else if results.avgResponseTime > 2.0 {
      score := score - 2;
    } else if results.avgResponseTime > 1.0 {
      score := score - 1;
    }

    if results.avgSimilarity < 0.6 {
      score := score - 2;
    } else if results.avgSimilarity < 0.7 {
      score := score - 1;
    }

    if results.avgContextCount < 1.0 {
      score := score - 2;
    }

    if score < 1 {
      score := 1;
    }
  }

  /** A run that is no slower, no less similar and retrieves no fewer
      chunks never scores lower. */
  lemma ScoreMonotone(worse: BenchmarkResults, better: BenchmarkResults)
    requires better.avgResponseTime <= worse.avgResponseTime
    requires better.avgSimilarity >= worse.avgSimilarity
    requires better.avgContextCount >= worse.avgContextCount
    ensures PerformanceScore(better) >= PerformanceScore(worse)
  {
  }

}

=== FILE: embed.dfy ===
/** The offline build step: the flat index built over the chunk embeddings,
    and the chunk file written beside it, one chunk after another, each
    followed by a delimiter line. */
module Embed {
  import opened Strings

  /** What the writer appends after every chunk. */
  const ChunkTerminator: string := "\n=====\n"

  type Vector = seq<real>

  /** A flat L2 index after its one bulk `add`: the dimension fixed at
      construction and the stored vectors in insertion order. */
  datatype FlatIndex = FlatIndex(dim: nat, vectors: seq<Vector>)
  {
    function Size(): nat {
      |vectors|
    }
  }

  /** Builds the index over `embedded`, the embedding provider's answer for
      `chunks` (one vector per chunk, in chunk order). The dimension is read
      from the first vector, so there must be at least one; the bulk add
      accepts only vectors of that dimension. */
  function CreateIndex(chunks: seq<string>, embedded: seq<Vector>): (index: FlatIndex)
    requires |embedded| == |chunks|
    requires |chunks| > 0
    requires forall v :: v in embedded ==> |v| == |embedded[0]|
    ensures forall v :: v in index.vectors ==> |v| == index.dim
    ensures index.Size() == |chunks|
    ensures forall i :: 0 <= i < |chunks| ==> index.vectors[i] == embedded[i]
  {
    FlatIndex(|embedded[0]|, embedded)
  }

  /** The combined length of all chunks. */
  function TotalLength(chunks: seq<string>): nat {
    if chunks == [] then 0 else |chunks[0]| + TotalLength(chunks[1..])
  }

  /** The chunk file's content: each chunk, in order, followed by
      `ChunkTerminator`. */
  function Serialize(chunks: seq<string>): (content: string)
    ensures |content| == TotalLength(chunks) + 7 * |chunks|
    ensures content == "" <==> chunks == []
    ensures chunks != [] ==> EndsWith(content, ChunkTerminator)
  {
    if chunks == [] then "" else chunks[0] + ChunkTerminator + Serialize(chunks[1..])
  }

  /** Serialising a concatenation concatenates the serialisations. */
  lemma {:induction false} SerializeConcat(a: seq<string>, b: seq<string>)
    ensures Serialize(a + b) == Serialize(a) + Serialize(b)
  {
    if a != [] {
      assert (a + b)[1..] == a[1..] + b;
      SerializeConcat(a[1..], b);
    } else {
      assert a + b == b;
    }
  }

  /** Writing one more chunk appends it and its terminator. */
  lemma SerializeSnoc(chunks: seq<string>, c: string)
    ensures Serialize(chunks + [c]) == Serialize(chunks) + c + ChunkTerminator
  {
    SerializeConcat(chunks, [c]);
    assert Serialize([c]) == c + ChunkTerminator + Serialize([]);
  }

  /** Where chunk `i` starts in the file: after all earlier chunks and their
      terminators. */
  function Offset(chunks: seq<string>, i: nat): nat
    requires i <= |chunks|
  {
    TotalLength(chunks[..i]) + 7 * i
  }

  /** Chunk `i` and its terminator sit at `Offset(chunks, i)` in the file. */
  lemma {:induction false} SerializeLayout(chunks: seq<string>, i: nat)
    requires i < |chunks|
    ensures OccursAt(Serialize(chunks), chunks[i] + ChunkTerminator, Offset(chunks, i))
  {
    assert chunks == chunks[..i] + chunks[i..];
    SerializeConcat(chunks[..i], chunks[i..]);
    var before := Serialize(chunks[..i]);
    var after := Serialize(chunks[i..]);
    var entry := chunks[i] + ChunkTerminator;
    assert chunks[i..][0] == chunks[i] && chunks[i..][1..] == chunks[i + 1..];
    assert after == entry + Serialize(chunks[i + 1..]);
    assert after[..|entry|] == entry;
    assert |before| == Offset(chunks, i);
    assert (before + after)[|before|..|before| + |entry|] == after[..|entry|];
  }

  /** The writer's loop: one `write` of `chunk + ChunkTerminator` per chunk,
      in order. */
  method WriteChunkFile(chunks: seq<string>) returns (content: string)
    ensures content == Serialize(chunks)
    ensures |content| == TotalLength(chunks) + 7 * |chunks|
  {
    content := "";
    var i := 0;
    while i < |chunks|
      invariant 0 <= i <= |chunks|
      invariant content == Serialize(chunks[..i])
    {
      var chunk := chunks[i];
      SerializeSnoc(chunks[..i], chunk);
      assert chunks[..i] + [chunk] == chunks[..i + 1];
      content := content + chunk + ChunkTerminator;
      i := i + 1;
    }
    assert chunks[..i] == chunks;
  }

}

=== FILE: pysplit.dfy ===
/** Python's `str.split(sep)` with an explicit, non-empty separator, its
    inverse `sep.join(pieces)`, `str.count(sep)`, and `str.replace`
    built from the two.

    Python scans left to right: it cuts at the leftmost occurrence of `sep`
    and continues after it, so occurrences never overlap. */
module PySplit {
  import opened Strings

  /** Python's `sep.join(pieces)`. */
  function Join(pieces: seq<string>, sep: string): string {
    if |pieces| == 0 then ""
    else if |pieces| == 1 then pieces[0]
    else pieces[0] + sep + Join(pieces[1..], sep)
  }

  /** Cutting `piece + sep` at its end is the leftmost choice: `sep` occurs
      nowhere in `piece + sep` before index `|piece|`. */
  predicate CutIsLeftmost(piece: string, sep: string) {
    forall j :: 0 <= j < |piece| ==> !OccursAt(piece + sep, sep, j)
  }

  /** `pieces` is a left-to-right, non-overlapping split of `s` on `sep`:
      joining gives back `s`, every cut but the last is at the leftmost
      occurrence that remains, and the last piece holds no separator. */
  predicate IsSplitOf(pieces: seq<string>, s: string, sep: string) {
    && |pieces| >= 1
    && Join(pieces, sep) == s
    && (forall k :: 0 <= k < |pieces| - 1 ==> CutIsLeftmost(pieces[k], sep))
    && !Contains(pieces[|pieces| - 1], sep)
  }

  /** The text before the leftmost occurrence of `sep` holds no `sep`,
      and cutting there is leftmost. */
  lemma FirstPieceIsClean(s: string, sep: string, i: int)
    requires sep != ""
    requires i == Find(s, sep) && i != -1
    ensures !Contains(s[..i], sep)
    ensures CutIsLeftmost(s[..i], sep)
  {
    forall j | OccursAt(s[..i], sep, j)
      ensures false
    {
      OccursInPrefix(s, sep, i, j);
    }
    assert s[..i] + sep == s[..i + |sep|];
    forall j | 0 <= j < i && OccursAt(s[..i] + sep, sep, j)
      ensures false
    {
      OccursInPrefix(s, sep, i + |sep|, j);
    }
  }

  /** Python's `s.split(sep)`. */
  function Split(s: string, sep: string): (pieces: seq<string>)
    requires sep != ""
    ensures |pieces| >= 1
    ensures Join(pieces, sep) == s
    ensures forall k :: 0 <= k < |pieces| ==> !Contains(pieces[k], sep)
    ensures forall k :: 0 <= k < |pieces| - 1 ==> CutIsLeftmost(pieces[k], sep)
    ensures s == "" ==> pieces == [""]
    decreases |s|
  {
    var i := Find(s, sep);
    if i == -1 then [s]
    else
      var rest := Split(s[i + |sep|..], sep);
      FirstPieceIsClean(s, sep, i);
      PrependPiece(s[..i], rest, sep);
      assert s == s[..i] + sep + s[i + |sep|..];
      [s[..i]] + rest
  }

  /** Putting `first` in front of `rest` joins as `first + sep + ...` and
      keeps the per-piece properties of both. */
  lemma PrependPiece(first: string, rest: seq<string>, sep: string)
    requires |rest| >= 1
    requires !Contains(first, sep) && CutIsLeftmost(first, sep)
    requires forall k :: 0 <= k < |rest| ==> !Contains(rest[k], sep)
    requires forall k :: 0 <= k < |rest| - 1 ==> CutIsLeftmost(rest[k], sep)
    ensures Join([first] + rest, sep) == first + sep + Join(rest, sep)
    ensures forall k :: 0 <= k < |rest| + 1 ==> !Contains(([first] + rest)[k], sep)
    ensures forall k :: 0 <= k < |rest| ==> CutIsLeftmost(([first] + rest)[k], sep)
  {
  }

  /** `Split` meets the definition of a split. */
  lemma SplitIsSplitOf(s: string, sep: string)
    requires sep != ""
    ensures IsSplitOf(Split(s, sep), s, sep)
  {
  }

  /** When `p + sep` ends at the leftmost occurrence of `sep`, splitting
      `p + sep + rest` cuts off `p` first. */
  lemma SplitAfterCut(p: string, sep: string, rest: string)
    requires sep != ""
    requires CutIsLeftmost(p, sep)
    ensures Split(p + sep + rest, sep) == [p] + Split(rest, sep)
  {
    var s := p + sep + rest;
    assert s[..|p| + |sep|] == p + sep;
    assert s[|p|..|p| + |sep|] == sep;
    assert OccursAt(s, sep, |p|);
    forall j | 0 <= j < |p| && OccursAt(s, sep, j)
      ensures false
    {
      OccursWithinPrefix(s, sep, |p| + |sep|, j);
    }
    var i := Find(s, sep);
    assert i == |p|;
    assert s[..i] == p;
    assert s[i + |sep|..] == rest;
  }

  /** Where `sep` occurs, the split cuts at its leftmost occurrence. */
  lemma SplitAtFind(s: string, sep: string)
    requires sep != "" && Find(s, sep) != -1
    ensures Split(s, sep) == [s[..Find(s, sep)]] + Split(s[Find(s, sep) + |sep|..], sep)
  {
  }

  /** A split is unique: any sequence meeting `IsSplitOf` is what `Split`
      returns. */
  lemma {:induction false} SplitUnique(pieces: seq<string>, s: string, sep: string)
    requires sep != ""
    requires IsSplitOf(pieces, s, sep)
    ensures pieces == Split(s, sep)
    decreases |pieces|
  {
    if |pieces| == 1 {
      assert Find(s, sep) == -1;
    } else {
      var rest := pieces[1..];
      assert CutIsLeftmost(pieces[0], sep);
      assert IsSplitOf(rest, Join(rest, sep), sep) by {
        forall k | 0 <= k < |rest| - 1
          ensures CutIsLeftmost(rest[k], sep)
        {
          assert rest[k] == pieces[k + 1];
        }
      }
      SplitUnique(rest, Join(rest, sep), sep);
      SplitAfterCut(pieces[0], sep, Join(rest, sep));
    }
  }

  /** Joining `first` in front of a non-empty list puts `sep` between. */
  lemma JoinPrepend(first: string, rest: seq<string>, sep: string)
    requires |rest| >= 1
    ensures Join([first] + rest, sep) == first + sep + Join(rest, sep)
  {
    assert ([first] + rest)[1..] == rest;
  }

  /** Joining after putting `c` in front of the first piece puts `c` in
      front of the join. */
  lemma JoinConsFirst(c: char, pieces: seq<string>, sep: string)
    requires |pieces| >= 1
    ensures Join([[c] + pieces[0]] + pieces[1..], sep) == [c] + Join(pieces, sep)
  {
    if |pieces| > 1 {
      JoinPrepend([c] + pieces[0], pieces[1..], sep);
    }
  }

  /** Python's `s.replace(pat, rep)`: the occurrences `split` cuts at, each
      replaced by `rep`. */
  function Replace(s: string, pat: string, rep: string): string
    requires pat != ""
  {
    Join(Split(s, pat), rep)
  }

  /** Replacing in the empty string gives the empty string. */
  lemma ReplaceEmpty(pat: string, rep: string)
    requires pat != ""
    ensures Replace("", pat, rep) == ""
  {
  }

  /** A string that starts with `pat` starts its replacement with `rep`. */
  lemma ReplaceAtMatch(s: string, pat: string, rep: string)
    requires pat != "" && StartsWith(s, pat)
    ensures Replace(s, pat, rep) == rep + Replace(s[|pat|..], pat, rep)
  {
    var later := Split(s[|pat|..], pat);
    SplitAtStart(s, pat);
    JoinAfterEmpty(later, rep);
    assert Replace(s, pat, rep) == Join([""] + later, rep);
  }

  /** Joining an empty first piece starts the result with `sep`. */
  lemma JoinAfterEmpty(rest: seq<string>, sep: string)
    requires |rest| >= 1
    ensures Join([""] + rest, sep) == sep + Join(rest, sep)
  {
    JoinPrepend("", rest, sep);
    assert "" + sep == sep;
  }

  /** A string that starts with `sep` splits into an empty first piece and
      the split of what follows the separator. */
  lemma SplitAtStart(s: string, sep: string)
    requires sep != "" && StartsWith(s, sep)
    ensures Split(s, sep) == [""] + Split(s[|sep|..], sep)
  {
    assert OccursAt(s, sep, 0);
    assert Find(s, sep) == 0;
  }

  /** A string that does not start with `pat` keeps its first character. */
  lemma ReplaceAtOther(s: string, pat: string, rep: string)
    requires pat != "" && s != [] && !StartsWith(s, pat)
    ensures Replace(s, pat, rep) == [s[0]] + Replace(s[1..], pat, rep)
  {
    var c := s[0];
    var pieces := Split(s[1..], pat);
    var moved := [[c] + pieces[0]] + pieces[1..];
    JoinConsFirst(c, pieces, pat);
    assert s == [c] + s[1..];
    if |pieces| > 1 {
      assert Join(pieces, pat) == pieces[0] + pat + Join(pieces[1..], pat);
      ConsKeepsLeftmost(c, pieces[0], pat, Join(pieces[1..], pat));
      forall k | 1 <= k < |moved|
        ensures moved[k] == pieces[k]
      {
      }
    } else {
      ConsKeepsClean(c, pieces[0], pat);
    }
    assert IsSplitOf(moved, s, pat);
    SplitUnique(moved, s, pat);
    JoinConsFirst(c, pieces, rep);
  }

  /** A piece whose cut is leftmost keeps that property with one more
      character in front, unless the whole string then starts with `sep`. */
  lemma ConsKeepsLeftmost(c: char, piece: string, sep: string, after: string)
    requires sep != ""
    requires CutIsLeftmost(piece, sep)
    requires !StartsWith([c] + piece + sep + after, sep)
    ensures CutIsLeftmost([c] + piece, sep)
  {
    var x := [c] + piece + sep;
    forall j | 0 <= j < |[c] + piece|
      ensures !OccursAt(x, sep, j)
    {
      if j == 0 {
        assert (x + after)[..|sep|] == x[..|sep|];
      } else {
        assert x == [c] + (piece + sep);
        assert !OccursAt(piece + sep, sep, j - 1);
        assert x[j..j + |sep|] == (piece + sep)[j - 1..j - 1 + |sep|];
      }
    }
  }

  /** A piece free of `sep` stays free of it with one more character in
      front, unless it then starts with `sep`. */
  lemma ConsKeepsClean(c: char, piece: string, sep: string)
    requires sep != ""
    requires !Contains(piece, sep)
    requires !StartsWith([c] + piece, sep)
    ensures !Contains([c] + piece, sep)
  {
    var x := [c] + piece;
    forall j | 0 <= j <= |x|
      ensures !OccursAt(x, sep, j)
    {
      if j > 0 && OccursAt(x, sep, j) {
        assert x[j..j + |sep|] == piece[j - 1..j - 1 + |sep|];
        assert OccursAt(piece, sep, j - 1);
      }
    }
  }

  /** Python's `s.count(sep)`: occurrences counted left to right, each
      search resuming after the previous match. */
  function Count(s: string, sep: string): nat
    requires sep != ""
    decreases |s|
  {
    if |s| < |sep| then 0
    else if s[..|sep|] == sep then 1 + Count(s[|sep|..], sep)
    else Count(s[1..], sep)
  }

  /** A prefix free of occurrences does not change the count. */
  lemma {:induction false} CountSkips(s: string, sep: string, i: nat)
    requires sep != ""
    requires i <= |s|
    requires forall j :: 0 <= j < i ==> !OccursAt(s, sep, j)
    ensures Count(s, sep) == Count(s[i..], sep)
    decreases i
  {
    if i > 0 && |s| >= |sep| {
      assert !OccursAt(s, sep, 0);
      forall j | 0 <= j < i - 1
        ensures !OccursAt(s[1..], sep, j)
      {
        if OccursAt(s[1..], sep, j) {
          assert s[1..][j..j + |sep|] == s[j + 1..j + 1 + |sep|];
          assert OccursAt(s, sep, j + 1);
        }
      }
      CountSkips(s[1..], sep, i - 1);
      assert s[1..][i - 1..] == s[i..];
    }
  }

  /** Dropping a prefix never raises the count: the left-to-right scan
      finds at least as many occurrences in `s` as in any suffix of it. */
  lemma {:induction false} CountDropPrefix(s: string, sep: string, k: nat)
    requires sep != "" && k <= |s|
    ensures Count(s[k..], sep) <= Count(s, sep)
    decreases |s|, 1
  {
    if k > 0 {
      CountDropOne(s, sep);
      CountDropPrefix(s[1..], sep, k - 1);
      assert s[1..][k - 1..] == s[k..];
    }
  }

  /** Dropping the first character never raises the count. */
  lemma {:induction false} CountDropOne(s: string, sep: string)
    requires sep != "" && s != []
    ensures Count(s[1..], sep) <= Count(s, sep)
    decreases |s|, 0
  {
    if |s| < |sep| {
      assert Count(s[1..], sep) == 0;
    } else if s[..|sep|] == sep {
      CountDropShort(s[1..], sep, |sep| - 1);
      assert s[1..][|sep| - 1..] == s[|sep|..];
      assert Count(s, sep) == 1 + Count(s[|sep|..], sep);
    }
  }

  /** Dropping fewer characters than the separator's length loses at most
      one occurrence. */
  lemma {:induction false} CountDropShort(s: string, sep: string, d: nat)
    requires sep != "" && d < |sep| && d <= |s|
    ensures Count(s, sep) <= 1 + Count(s[d..], sep)
    decreases |s|, 0
  {
    if d > 0 && |s| >= |sep| {
      if s[..|sep|] == sep {
        CountDropPrefix(s[d..], sep, |sep| - d);
        assert s[d..][|sep| - d..] == s[|sep|..];
      } else {
        CountDropShort(s[1..], sep, d - 1);
        assert s[1..][d - 1..] == s[d..];
      }
    }
  }

  /** An occurrence of `sep` after any text adds at least one to the count
      of what follows it. */
  lemma CountPastSeparator(before: string, sep: string, after: string)
    requires sep != ""
    ensures Count(before + sep + after, sep) >= 1 + Count(after, sep)
  {
    var s := before + sep + after;
    CountDropPrefix(s, sep, |before|);
    assert s[|before|..] == sep + after;
    assert (sep + after)[..|sep|] == sep && (sep + after)[|sep|..] == after;
  }

  /** Splitting yields one more piece than there are separators. */
  lemma {:induction false} SplitCount(s: string, sep: string)
    requires sep != ""
    ensures |Split(s, sep)| == Count(s, sep) + 1
    decreases |s|
  {
    var i := Find(s, sep);
    if i == -1 {
      CountSkips(s, sep, |s|);
    } else {
      CountSkips(s, sep, i);
      var t := s[i..];
      assert t[..|sep|] == sep;
      assert t[|sep|..] == s[i + |sep|..];
      SplitCount(s[i + |sep|..], sep);
    }
  }

}

=== FILE: results.dfy ===
/** The outcome of an operation that raises in the modelled program: either
    a value or the error it would raise. */
module Results {

  datatype Result<+T, +E> = Ok(value: T) | Err(error: E)

}

=== FILE: retrieval.dfy ===
/** The query side: loading the chunk file back into a list, looking up the
    chunk at the position the index search reports, and composing the
    prompt handed to the chat model. */
module Retrieval {
  import opened Strings
  import opened PySplit
  import opened Embed
  import opened Results

  /** What the reader splits the chunk file on. It is the writer's
      terminator without its leading newline. */
  const PieceSeparator: string := "=====\n"

  /** What a text-mode read returns for the bytes written: universal
      newlines turn every `"\r\n"` and every other `"\r"` into `"\n"`. */
  function ReadText(written: string): (text: string)
    ensures '\r' !in text
    ensures '\r' !in written ==> text == written
    ensures |text| <= |written|
  {
    TranslateFacts(written);
    Translate(written)
  }

  /** The newline translation itself, one `"\r\n"`, `"\r"` or other
      character at a time. */
  function Translate(written: string): string
    decreases |written|
  {
    if written == [] then []
    else if written[0] == '\r' then
      if |written| > 1 && written[1] == '\n' then "\n" + Translate(written[2..])
      else "\n" + Translate(written[1..])
    else [written[0]] + Translate(written[1..])
  }

  lemma {:induction false} TranslateFacts(written: string)
    ensures '\r' !in Translate(written)
    ensures '\r' !in written ==> Translate(written) == written
    ensures |Translate(written)| <= |written|
    decreases |written|
  {
    if written != [] {
      if written[0] == '\r' && |written| > 1 && written[1] == '\n' {
        TranslateFacts(written[2..]);
      } else {
        TranslateFacts(written[1..]);
        if '\r' !in written {
          assert '\r' !in written[1..];
          assert written == [written[0]] + written[1..];
        }
      }
    }
  }

  /** The read agrees with Python's own spelling of universal newlines,
      `written.replace("\r\n", "\n").replace("\r", "\n")`: each `"\r\n"`
      and each remaining `"\r"` becomes one `"\n"`. */
  lemma {:induction false} ReadTextIsReplace(written: string)
    ensures ReadText(written) == Replace(Replace(written, "\r\n", "\n"), "\r", "\n")
    decreases |written|
  {
    if written == [] {
      ReplaceEmpty("\r\n", "\n");
      ReplaceEmpty("\r", "\n");
    } else if written[0] == '\r' && |written| > 1 && written[1] == '\n' {
      var later := Replace(written[2..], "\r\n", "\n");
      ReplaceAtMatch(written, "\r\n", "\n");
      ReplaceAtOther("\n" + later, "\r", "\n");
      assert ("\n" + later)[1..] == later;
      ReadTextIsReplace(written[2..]);
    } else if written[0] == '\r' {
      var later := Replace(written[1..], "\r\n", "\n");
      ReplaceAtOther(written, "\r\n", "\n");
      ReplaceAtMatch("\r" + later, "\r", "\n");
      assert ("\r" + later)[1..] == later;
      ReadTextIsReplace(written[1..]);
    } else {
      var later := Replace(written[1..], "\r\n", "\n");
      ReplaceAtOther(written, "\r\n", "\n");
      ReplaceAtOther([written[0]] + later, "\r", "\n");
      assert ([written[0]] + later)[1..] == later;
      ReadTextIsReplace(written[1..]);
    }
  }

  /** The chunk list as loaded: the file content split on `PieceSeparator`.
      Content that ends in the separator leaves an empty last piece. */
  function LoadChunks(content: string): (pieces: seq<string>)
    ensures |pieces| == Count(content, PieceSeparator) + 1
    ensures Join(pieces, PieceSeparator) == content
    ensures forall k :: 0 <= k < |pieces| ==> !Contains(pieces[k], PieceSeparator)
    ensures EndsWith(content, PieceSeparator) ==> pieces[|pieces| - 1] == ""
  {
    SplitCount(content, PieceSeparator);
    if EndsWith(content, PieceSeparator) then
      SplitEndsInEmptyPiece(content);
      Split(content, PieceSeparator)
    else
      Split(content, PieceSeparator)
  }

  /** The chunk-file load: a text-mode read of the written bytes, then the
      split. No piece keeps a separator or a carriage return. */
  function ReadChunkFile(written: string): (pieces: seq<string>)
    ensures |pieces| >= 1
    ensures Join(pieces, PieceSeparator) == ReadText(written)
    ensures forall k :: 0 <= k < |pieces| ==> !Contains(pieces[k], PieceSeparator)
    ensures forall k :: 0 <= k < |pieces| ==> '\r' !in pieces[k]
  {
    var pieces := LoadChunks(ReadText(written));
    PiecesOfJoin(pieces, PieceSeparator, '\r');
    pieces
  }

  /** A character absent from a join is absent from every piece. */
  lemma {:induction false} PiecesOfJoin(pieces: seq<string>, sep: string, ch: char)
    requires ch !in Join(pieces, sep)
    ensures forall k :: 0 <= k < |pieces| ==> ch !in pieces[k]
  {
    if |pieces| > 1 {
      assert Join(pieces, sep) == pieces[0] + sep + Join(pieces[1..], sep);
      PiecesOfJoin(pieces[1..], sep, ch);
      forall k | 1 <= k < |pieces|
        ensures ch !in pieces[k]
      {
        assert pieces[k] == pieces[1..][k - 1];
      }
    }
  }

  datatype LookupError = IndexOutOfRange

  /** Python's `chunks[position]`: a position in `0 .. |chunks|-1` selects
      that piece, a negative one down to `-|chunks|` counts from the end,
      anything else raises. */
  function GetTopMatch(chunks: seq<string>, position: int): (r: Result<string, LookupError>)
    ensures r.Ok? <==> -|chunks| <= position < |chunks|
    ensures 0 <= position < |chunks| ==> r == Ok(chunks[position])
    ensures -|chunks| <= position < 0 ==> r == Ok(chunks[|chunks| + position])
  {
    if 0 <= position < |chunks| then Ok(chunks[position])
    else if -|chunks| <= position < 0 then Ok(chunks[|chunks| + position])
    else Err(IndexOutOfRange)
  }

  /** A chunk that survives the round trip: it has no carriage return for
      the text-mode read to rewrite, and the separator does not occur in it
      once the writer's newline is appended. */
  predicate SafeChunk(chunk: string) {
    '\r' !in chunk && !Contains(chunk + "\n", PieceSeparator)
  }

  /** Carriage-return-free chunks give a carriage-return-free file, which
      the text-mode read returns unchanged. */
  lemma ReadTextAfterWrite(chunks: seq<string>)
    requires forall i :: 0 <= i < |chunks| ==> '\r' !in chunks[i]
    ensures ReadText(Serialize(chunks)) == Serialize(chunks)
  {
    SerializeHasNoCarriageReturn(chunks);
  }

  lemma {:induction false} SerializeHasNoCarriageReturn(chunks: seq<string>)
    requires forall i :: 0 <= i < |chunks| ==> '\r' !in chunks[i]
    ensures '\r' !in Serialize(chunks)
  {
    if chunks != [] {
      SerializeHasNoCarriageReturn(chunks[1..]);
      assert '\r' !in chunks[0];
    }
  }

  /** A safe chunk, with its newline, ends exactly where the next separator
      starts: every separator occurrence that begins inside it would need
      the final newline to be an `=`. */
  lemma SafeChunkCutIsLeftmost(chunk: string)
    requires SafeChunk(chunk)
    ensures CutIsLeftmost(chunk + "\n", PieceSeparator)
  {
    var p := chunk + "\n";
    var n := |PieceSeparator|;
    forall j | 0 <= j < |p|
      ensures !OccursAt(p + PieceSeparator, PieceSeparator, j)
    {
      if j + n <= |p| {
        assert (p + PieceSeparator)[j..j + n] == p[j..j + n];
        assert !OccursAt(p, PieceSeparator, j);
      } else {
        var k := |p| - 1 - j;
        assert (p + PieceSeparator)[j..j + n][k] == p[|p| - 1] == '\n';
        assert PieceSeparator[k] == '=';
      }
    }
  }

  /** Splitting what the writer wrote: with no chunk holding the separator,
      `n` chunks come back as `n + 1` pieces, piece `i` being chunk `i` with
      the writer's newline still attached, and the last piece empty. */
  lemma {:induction false} SplitAfterWrite(chunks: seq<string>)
    requires forall i :: 0 <= i < |chunks| ==> SafeChunk(chunks[i])
    ensures |LoadChunks(Serialize(chunks))| == |chunks| + 1
    ensures forall i :: 0 <= i < |chunks| ==> LoadChunks(Serialize(chunks))[i] == chunks[i] + "\n"
    ensures LoadChunks(Serialize(chunks))[|chunks|] == ""
  {
    if chunks != [] {
      var rest := chunks[1..];
      SplitFirstWritten(chunks);
      SplitAfterWrite(rest);
      var pieces := LoadChunks(Serialize(chunks));
      var tail := LoadChunks(Serialize(rest));
      forall i | 1 <= i < |chunks|
        ensures pieces[i] == chunks[i] + "\n"
      {
        assert pieces[i] == tail[i - 1];
        assert chunks[i] == rest[i - 1];
      }
    }
  }

  /** The first safe chunk is the first piece; the rest of the file splits
      as the rest of the chunks were written. */
  lemma SplitFirstWritten(chunks: seq<string>)
    requires chunks != [] && SafeChunk(chunks[0])
    ensures LoadChunks(Serialize(chunks)) == [chunks[0] + "\n"] + LoadChunks(Serialize(chunks[1..]))
  {
    WrittenHead(chunks);
    SafeChunkCutIsLeftmost(chunks[0]);
    SplitAfterCut(chunks[0] + "\n", PieceSeparator, Serialize(chunks[1..]));
  }

  /** The file of a non-empty chunk list is its first chunk, the writer's
      newline, a separator, and the file of the remaining chunks. */
  lemma WrittenHead(chunks: seq<string>)
    requires chunks != []
    ensures Serialize(chunks) == chunks[0] + "\n" + PieceSeparator + Serialize(chunks[1..])
  {
    var later := Serialize(chunks[1..]);
    assert Serialize(chunks) == chunks[0] + ChunkTerminator + later;
    TerminatorEndsInSeparator();
    assert chunks[0] + ChunkTerminator + later == chunks[0] + ("\n" + PieceSeparator) + later;
  }

  /** The writer's terminator is a newline followed by the reader's
      separator. */
  lemma TerminatorEndsInSeparator()
    ensures ChunkTerminator == "\n" + PieceSeparator
  {
  }

  /** Loading what the writer wrote, through the text-mode read: `n` safe
      chunks come back as `n + 1` pieces, piece `i` being chunk `i` plus
      the writer's newline, and the last piece empty. */
  lemma LoadAfterWrite(chunks: seq<string>)
    requires forall i :: 0 <= i < |chunks| ==> SafeChunk(chunks[i])
    ensures |ReadChunkFile(Serialize(chunks))| == |chunks| + 1
    ensures forall i :: 0 <= i < |chunks| ==> ReadChunkFile(Serialize(chunks))[i] == chunks[i] + "\n"
    ensures ReadChunkFile(Serialize(chunks))[|chunks|] == ""
  {
    ReadTextAfterWrite(chunks);
    SplitAfterWrite(chunks);
  }

  /** Alignment: the piece at every index position starts with the chunk
      whose embedding was stored at that position. */
  lemma LoadedPiecesAligned(chunks: seq<string>)
    requires forall i :: 0 <= i < |chunks| ==> SafeChunk(chunks[i])
    ensures |ReadChunkFile(Serialize(chunks))| == |chunks| + 1
    ensures forall i :: 0 <= i < |chunks| ==> StartsWith(ReadChunkFile(Serialize(chunks))[i], chunks[i])
  {
    LoadAfterWrite(chunks);
  }

  /** End to end: build the index, write the chunk file, load it, and look
      up a position the search reports for that index; the answer is the
      chunk embedded at that position, plus the writer's newline. */
  lemma TopMatchAfterWrite(chunks: seq<string>, embedded: seq<Vector>, position: int)
    requires |embedded| == |chunks| && |chunks| > 0
    requires forall v :: v in embedded ==> |v| == |embedded[0]|
    requires forall i :: 0 <= i < |chunks| ==> SafeChunk(chunks[i])
    requires 0 <= position < CreateIndex(chunks, embedded).Size()
    ensures GetTopMatch(ReadChunkFile(Serialize(chunks)), position) == Ok(chunks[position] + "\n")
  {
    LoadAfterWrite(chunks);
    var pieces := ReadChunkFile(Serialize(chunks));
    assert 0 <= position < |pieces| && pieces[position] == chunks[position] + "\n";
  }

  /** Python's negative indexing: position -1 is no error; it selects the
      trailing empty piece, which matches no chunk. */
  lemma NegativePositionSelectsEmptyPiece(chunks: seq<string>)
    ensures GetTopMatch(ReadChunkFile(Serialize(chunks)), -1) == Ok("")
  {
    var written := Serialize(chunks);
    if chunks != [] {
      FileEndsInSeparator(chunks);
      ReadKeepsSeparatorEnding(written);
    } else {
      EmptyFileLoadsOnePiece();
    }
    NegativeSelectsLast(ReadChunkFile(written));
  }

  /** Position -1 selects the last piece of any non-empty list. */
  lemma NegativeSelectsLast(pieces: seq<string>)
    requires |pieces| >= 1
    ensures GetTopMatch(pieces, -1) == Ok(pieces[|pieces| - 1])
  {
  }

  /** An empty file loads as one empty piece. */
  lemma EmptyFileLoadsOnePiece()
    ensures ReadChunkFile("") == [""]
  {
    assert ReadText("") == "";
  }

  /** A non-empty file ends in the reader's separator. */
  lemma FileEndsInSeparator(chunks: seq<string>)
    requires chunks != []
    ensures EndsWith(Serialize(chunks), PieceSeparator)
  {
    var written := Serialize(chunks);
    var n := |written|;
    assert written[n - 7..] == ChunkTerminator;
    TerminatorEndsInSeparator();
    assert written[n - 6..] == written[n - 7..][1..];
  }

  /** The read keeps a trailing separator: it holds no carriage return and
      does not start with the newline a carriage return could absorb. */
  lemma ReadKeepsSeparatorEnding(written: string)
    requires EndsWith(written, PieceSeparator)
    ensures EndsWith(ReadText(written), PieceSeparator)
  {
    var w := written[..|written| - |PieceSeparator|];
    assert written == w + PieceSeparator;
    TranslateAppend(w, PieceSeparator);
    var text := Translate(w) + PieceSeparator;
    assert ReadText(written) == text;
    assert text[|Translate(w)|..] == PieceSeparator;
  }

  /** Text after which nothing can pair with a trailing carriage return
      passes through the read unchanged. */
  lemma {:induction false} TranslateAppend(written: string, more: string)
    requires '\r' !in more
    requires more == [] || more[0] != '\n'
    ensures Translate(written + more) == Translate(written) + more
    decreases |written|
  {
    if written == [] {
      assert written + more == more;
      TranslateFacts(more);
    } else if written[0] == '\r' && |written| > 1 && written[1] == '\n' {
      TranslateAppend(written[2..], more);
      AppendAfterPair(written, more);
    } else {
      TranslateAppend(written[1..], more);
      AppendAfterSingle(written, more);
    }
  }

  /** One step of `TranslateAppend` past a leading `"\r\n"`. */
  lemma AppendAfterPair(written: string, more: string)
    requires |written| > 1 && written[0] == '\r' && written[1] == '\n'
    requires Translate(written[2..] + more) == Translate(written[2..]) + more
    ensures Translate(written + more) == Translate(written) + more
  {
    var s := written + more;
    DropAfterAppend(written, more, 2);
    assert s[0] == '\r' && s[1] == '\n';
    TranslatePair(s);
    TranslatePair(written);
    PrependAssoc("\n", Translate(written[2..]), more);
  }

  /** One step of `TranslateAppend` past a leading character that does not
      start a `"\r\n"`. */
  lemma AppendAfterSingle(written: string, more: string)
    requires more == [] || more[0] != '\n'
    requires written != [] && (written[0] == '\r' ==> |written| == 1 || written[1] != '\n')
    requires Translate(written[1..] + more) == Translate(written[1..]) + more
    ensures Translate(written + more) == Translate(written) + more
  {
    var s := written + more;
    DropAfterAppend(written, more, 1);
    assert s[0] == written[0];
    if |written| > 1 {
      assert s[1] == written[1];
    } else if more != [] {
      assert s[1] == more[0];
    }
    TranslateSingle(s);
    TranslateSingle(written);
    PrependAssoc(Lead(written[0]), Translate(written[1..]), more);
  }

  /** What the read turns a character into when it does not start a
      `"\r\n"`. */
  function Lead(c: char): string
  {
    if c == '\r' then "\n" else [c]
  }

  /** The read's step past a leading `"\r\n"`. */
  lemma TranslatePair(text: string)
    requires |text| > 1 && text[0] == '\r' && text[1] == '\n'
    ensures Translate(text) == "\n" + Translate(text[2..])
  {
  }

  /** The read's step past a leading character that does not start a
      `"\r\n"`. */
  lemma TranslateSingle(text: string)
    requires text != [] && (text[0] == '\r' ==> |text| == 1 || text[1] != '\n')
    ensures Translate(text) == Lead(text[0]) + Translate(text[1..])
  {
  }

  /** Concatenation regroups. */
  lemma PrependAssoc(head: string, x: string, more: string)
    ensures head + (x + more) == (head + x) + more
  {
  }

  /** Dropping a prefix that lies inside `a` commutes with appending `b`. */
  lemma DropAfterAppend(a: string, b: string, k: nat)
    requires k <= |a|
    ensures (a + b)[k..] == a[k..] + b
  {
  }

  /** Two occurrences of the separator are at least its length apart: the
      newline that ends one would fall on an `=` of the other. */
  lemma SeparatorsDoNotOverlap(s: string, i: int, j: int)
    requires OccursAt(s, PieceSeparator, i) && OccursAt(s, PieceSeparator, j)
    requires i < j
    ensures i + |PieceSeparator| <= j
  {
    var m := |PieceSeparator|;
    assert s[i + m - 1] == '\n' by {
      assert s[i + m - 1] == s[i..i + m][m - 1];
    }
    forall k | j <= k < j + m - 1
      ensures s[k] == '='
    {
      SeparatorHead(k - j);
      assert s[k] == s[j..j + m][k - j];
    }
  }

  /** Every character of the separator but the last is `'='`. */
  lemma SeparatorHead(d: int)
    requires 0 <= d < |PieceSeparator| - 1
    ensures PieceSeparator[d] == '='
  {
  }

  /** Text that ends in the separator splits with an empty last piece. */
  lemma {:induction false} SplitEndsInEmptyPiece(s: string)
    requires EndsWith(s, PieceSeparator)
    ensures Split(s, PieceSeparator)[|Split(s, PieceSeparator)| - 1] == ""
    decreases |s|
  {
    var m := |PieceSeparator|;
    var j := |s| - m;
    assert OccursAt(s, PieceSeparator, j);
    var i := Find(s, PieceSeparator);
    var rest := s[i + m..];
    SplitAtFind(s, PieceSeparator);
    var pieces := Split(s, PieceSeparator);
    var tail := Split(rest, PieceSeparator);
    assert pieces == [s[..i]] + tail;
    if i < j {
      SeparatorsDoNotOverlap(s, i, j);
      assert rest[|rest| - m..] == s[j..];
      SplitEndsInEmptyPiece(rest);
    } else {
      assert rest == "";
    }
    assert pieces[|pieces| - 1] == tail[|tail| - 1];
  }

  /** Every chunk ends in one separator of the file, and a chunk holding
      a separator (with its newline) holds at least one more. */
  lemma {:induction false} CountWritten(chunks: seq<string>)
    ensures Count(Serialize(chunks), PieceSeparator) >= |chunks|
    ensures (exists i :: 0 <= i < |chunks| && Contains(chunks[i] + "\n", PieceSeparator))
            ==> Count(Serialize(chunks), PieceSeparator) >= |chunks| + 1
  {
    if chunks != [] {
      var rest := chunks[1..];
      var x := chunks[0] + "\n";
      var later := Serialize(rest);
      WrittenHead(chunks);
      CountWritten(rest);
      if Contains(x, PieceSeparator) {
        CountEntryWithSeparator(x, later);
      } else {
        CountPastSeparator(x, PieceSeparator, later);
        if exists i :: 0 <= i < |chunks| && Contains(chunks[i] + "\n", PieceSeparator) {
          var i :| 0 <= i < |chunks| && Contains(chunks[i] + "\n", PieceSeparator);
          assert rest[i - 1] == chunks[i];
        }
      }
    }
  }

  /** An entry that holds a separator before its own adds two to the count
      of what follows. */
  lemma CountEntryWithSeparator(x: string, later: string)
    requires Contains(x, PieceSeparator)
    ensures Count(x + PieceSeparator + later, PieceSeparator) >= 2 + Count(later, PieceSeparator)
  {
    var p :| 0 <= p <= |x| && OccursAt(x, PieceSeparator, p);
    var head := x[..p];
    var tail := x[p + |PieceSeparator|..];
    assert x == head + PieceSeparator + tail;
    assert x + PieceSeparator + later == head + PieceSeparator + (tail + PieceSeparator + later);
    CountPastSeparator(head, PieceSeparator, tail + PieceSeparator + later);
    CountPastSeparator(tail, PieceSeparator, later);
  }

  /** A chunk that holds the separator once the writer's newline is added
      splits into extra pieces: the loaded list is longer than the index,
      so some later position selects the wrong text. */
  lemma UnsafeChunkAddsPieces(chunks: seq<string>)
    requires forall i :: 0 <= i < |chunks| ==> '\r' !in chunks[i]
    requires exists i :: 0 <= i < |chunks| && Contains(chunks[i] + "\n", PieceSeparator)
    ensures |ReadChunkFile(Serialize(chunks))| > |chunks| + 1
  {
    ReadTextAfterWrite(chunks);
    CountWritten(chunks);
  }

  /** For chunks without carriage returns, the file loads as exactly one
      piece per chunk plus the trailing one if and only if every chunk is
      safe. */
  lemma AlignedExactlyWhenSafe(chunks: seq<string>)
    requires forall i :: 0 <= i < |chunks| ==> '\r' !in chunks[i]
    ensures |ReadChunkFile(Serialize(chunks))| == |chunks| + 1
            <==> forall i :: 0 <= i < |chunks| ==> SafeChunk(chunks[i])
  {
    if forall i :: 0 <= i < |chunks| ==> SafeChunk(chunks[i]) {
      LoadAfterWrite(chunks);
    } else {
      var i :| 0 <= i < |chunks| && !SafeChunk(chunks[i]);
      UnsafeChunkAddsPieces(chunks);
    }
  }

  /** A chunk ending in `=====` breaks alignment: two chunks load as four
      pieces, and index position 1, where chunk "b" was embedded, selects
      the empty piece. */
  lemma SeparatorInChunkMisaligns()
    ensures ReadChunkFile(Serialize(["a=====", "b"])) == ["a", "", "b\n", ""]
    ensures GetTopMatch(ReadChunkFile(Serialize(["a=====", "b"])), 1) == Ok("")
  {
    MisalignedFileContent();
    MisalignedFileSplit();
    SplitUnique(["a", "", "b\n", ""], "a=====\n=====\nb\n=====\n", PieceSeparator);
  }

  lemma MisalignedFileContent()
    ensures ReadText(Serialize(["a=====", "b"])) == "a=====\n=====\nb\n=====\n"
  {
    MisalignedFileText();
  }

  lemma MisalignedFileText()
    ensures Serialize(["a=====", "b"]) == "a=====\n=====\nb\n=====\n"
    ensures '\r' !in "a=====\n=====\nb\n=====\n"
  {
    SerializePair("a=====", "b");
    MisalignedFileLiteral();
  }

  lemma MisalignedFileLiteral()
    ensures "a=====" + ChunkTerminator + "b" + ChunkTerminator == "a=====\n=====\nb\n=====\n"
    ensures '\r' !in "a=====\n=====\nb\n=====\n"
  {
  }

  /** The file of two chunks. */
  lemma SerializePair(x: string, y: string)
    ensures Serialize([x, y]) == x + ChunkTerminator + y + ChunkTerminator
  {
    assert [x, y][1..] == [y];
    assert [y][1..] == [];
    assert Serialize([y]) == y + ChunkTerminator;
  }

  /** A carriage return before the writer's newline breaks alignment too:
      `"a=====\r" + "\n"` holds no separator, but the text-mode read turns
      the written `"\r\n"` into `"\n"`, which completes one. */
  lemma CarriageReturnMisaligns()
    ensures '\r' in "a=====\r"
    ensures !Contains("a=====\r" + "\n", PieceSeparator)
    ensures ReadChunkFile(Serialize(["a=====\r", "b"])) == ["a", "", "b\n", ""]
    ensures GetTopMatch(ReadChunkFile(Serialize(["a=====\r", "b"])), 1) == Ok("")
  {
    var p := "a=====\r" + "\n";
    forall j | 0 <= j <= |p|
      ensures !OccursAt(p, PieceSeparator, j)
    {
      if j == 0 {
        assert p[0..6][0] == 'a';
      } else if j == 1 {
        assert p[1..7][5] == '\r';
      } else if j == 2 {
        assert p[2..8][4] == '\r';
      }
    }
    CarriageReturnFileContent();
    MisalignedFileSplit();
    SplitUnique(["a", "", "b\n", ""], "a=====\n=====\nb\n=====\n", PieceSeparator);
  }

  lemma CarriageReturnFileContent()
    ensures ReadText(Serialize(["a=====\r", "b"])) == "a=====\n=====\nb\n=====\n"
  {
    var tail := "=====\nb\n=====\n";
    CarriageReturnFileText(tail);
    CarriageReturnTail(tail);
    ReadTextPrefix("a=====", "\r\n" + tail);
    ReadTextOfPair(tail);
  }

  /** The read of `"\r\n"` followed by text without carriage returns. */
  lemma ReadTextOfPair(tail: string)
    requires '\r' !in tail
    ensures ReadText("\r\n" + tail) == "\n" + tail
  {
    var text := "\r\n" + tail;
    assert text[0] == '\r' && text[1] == '\n' && text[2..] == tail;
    assert Translate(text) == "\n" + Translate(tail);
    TranslateFacts(tail);
  }

  lemma CarriageReturnFileText(tail: string)
    requires tail == "=====\nb\n=====\n"
    ensures Serialize(["a=====\r", "b"]) == "a=====" + ("\r\n" + tail)
  {
    CarriageReturnFileLiteral();
    CarriageReturnSplice(tail);
  }

  lemma CarriageReturnSplice(tail: string)
    requires tail == "=====\nb\n=====\n"
    ensures "a=====\r\n=====\nb\n=====\n" == "a=====" + ("\r\n" + tail)
  {
  }

  lemma CarriageReturnFileLiteral()
    ensures Serialize(["a=====\r", "b"]) == "a=====\r\n=====\nb\n=====\n"
  {
    SerializePair("a=====\r", "b");
    CarriageReturnLiteral();
  }

  lemma CarriageReturnLiteral()
    ensures "a=====\r" + ChunkTerminator + "b" + ChunkTerminator == "a=====\r\n=====\nb\n=====\n"
  {
  }

  lemma CarriageReturnTail(tail: string)
    requires tail == "=====\nb\n=====\n"
    ensures "a=====" + ("\n" + tail) == "a=====\n=====\nb\n=====\n"
    ensures '\r' !in tail
  {
  }

  /** Text without carriage returns passes through the read unchanged in
      front of whatever follows it. */
  lemma {:induction false} ReadTextPrefix(plain: string, rest: string)
    requires '\r' !in plain
    ensures ReadText(plain + rest) == plain + ReadText(rest)
  {
    if plain != [] {
      var s := plain + rest;
      assert s[0] == plain[0] && plain[0] != '\r';
      assert s[1..] == plain[1..] + rest;
      ReadTextPrefix(plain[1..], rest);
      assert ReadText(s) == [plain[0]] + ReadText(s[1..]);
      assert plain == [plain[0]] + plain[1..];
    } else {
      assert plain + rest == rest;
    }
  }

  lemma MisalignedFileSplit()
    ensures IsSplitOf(["a", "", "b\n", ""], "a=====\n=====\nb\n=====\n", PieceSeparator)
  {
    assert Join(["a", "", "b\n", ""], PieceSeparator) == "a=====\n=====\nb\n=====\n";
    assert CutIsLeftmost("a", PieceSeparator) by {
      assert ("a" + PieceSeparator)[0..6][0] == 'a';
    }
    assert CutIsLeftmost("b\n", PieceSeparator) by {
      assert ("b\n" + PieceSeparator)[0..6][0] == 'b';
      assert ("b\n" + PieceSeparator)[1..7][0] == '\n';
    }
    assert !Contains("", PieceSeparator);
  }

  const ContextLabel: string := "Context: "
  const QueryLabel: string := "\n\nUser Query: "
  const ResponseLabel: string := "\n\n Response:"

  /** The user message sent to the chat model. */
  function BuildPrompt(query: string, context: string): (prompt: string)
    ensures StartsWith(prompt, ContextLabel)
    ensures EndsWith(prompt, ResponseLabel)
    ensures OccursAt(prompt, context, |ContextLabel|)
    ensures OccursAt(prompt, QueryLabel, |ContextLabel| + |context|)
    ensures OccursAt(prompt, query, |ContextLabel| + |context| + |QueryLabel|)
    ensures |prompt| == |context| + |query| + 35
  {
    PromptText(query, context)
  }

  /** The f-string of the prompt template. */
  function PromptText(query: string, context: string): string {
    ContextLabel + context + QueryLabel + query + ResponseLabel
  }

  /** Knowing the context's length, the prompt gives back context and query. */
  lemma PromptDeterminesParts(q1: string, c1: string, q2: string, c2: string)
    requires |c1| == |c2|
    requires BuildPrompt(q1, c1) == BuildPrompt(q2, c2)
    ensures c1 == c2 && q1 == q2
  {
  }

  /** Without that length the prompt is ambiguous: a context that itself
      holds the query label reads the same as a longer query. */
  lemma PromptIsAmbiguous()
    ensures BuildPrompt("c", "a\n\nUser Query: b") == BuildPrompt("b\n\nUser Query: c", "a")
  {
    assert "a\n\nUser Query: b" == "a" + QueryLabel + "b";
    assert "b\n\nUser Query: c" == "b" + QueryLabel + "c";
    PromptLabelShift("c", "a", "b");
    assert BuildPrompt("c", "a" + QueryLabel + "b") == PromptText("c", "a" + QueryLabel + "b");
  }

  /** Text between two query labels can belong to the context or to the
      query: the prompt is the same. */
  lemma PromptLabelShift(query: string, context: string, middle: string)
    ensures PromptText(query, context + QueryLabel + middle)
         == PromptText(middle + QueryLabel + query, context)
  {
  }

}

=== FILE: strings.dfy ===
/** Occurrence, containment, prefix and suffix tests on strings, and
    Python's `str.find`. Shared by the chunk-file writer and reader. */
module Strings {

  /** `pat` occurs in `s` at index `i`. */
  predicate OccursAt(s: string, pat: string, i: int) {
    0 <= i && i + |pat| <= |s| && s[i..i + |pat|] == pat
  }

  /** Python's `pat in s`. */
  predicate Contains(s: string, pat: string) {
    exists i | 0 <= i <= |s| :: OccursAt(s, pat, i)
  }

  predicate StartsWith(s: string, prefix: string) {
    prefix <= s
  }

  predicate EndsWith(s: string, suffix: string) {
    |suffix| <= |s| && s[|s| - |suffix|..] == suffix
  }

  /** An occurrence inside a prefix of `s` is an occurrence in `s`. */
  lemma OccursInPrefix(s: string, pat: string, m: nat, i: int)
    requires m <= |s|
    requires OccursAt(s[..m], pat, i)
    ensures OccursAt(s, pat, i)
  {
  }

  /** An occurrence of `s` that ends by index `m` is an occurrence in `s[..m]`. */
  lemma OccursWithinPrefix(s: string, pat: string, m: nat, i: int)
    requires m <= |s|
    requires OccursAt(s, pat, i) && i + |pat| <= m
    ensures OccursAt(s[..m], pat, i)
  {
  }

  /** The first index at or after `start` where `pat` occurs, or -1. */
  function FindFrom(s: string, pat: string, start: nat): (r: int)
    requires start <= |s|
    ensures r == -1 || (start <= r && OccursAt(s, pat, r))
    ensures forall j :: start <= j && (r == -1 || j < r) ==> !OccursAt(s, pat, j)
    decreases |s| - start
  {
    if start + |pat| > |s| then -1
    else if s[start..start + |pat|] == pat then start
    else FindFrom(s, pat, start + 1)
  }

  /** Python's `s.find(pat)`: the leftmost occurrence of `pat`, or -1 when
      there is none. */
  function Find(s: string, pat: string): (r: int)
    ensures r == -1 <==> !Contains(s, pat)
    ensures r != -1 ==> OccursAt(s, pat, r)
    ensures forall j :: 0 <= j && (r == -1 || j < r) ==> !OccursAt(s, pat, j)
  {
    FindFrom(s, pat, 0)
  }

}
